=== FILE: README.md ===
# Review active record, modelled in Dafny

The `Review` class of `lib/review.py` maps review objects to rows of a
`reviews` table. It has three validated attributes (`year`, `summary`,
`employee_id`), a class-level identity map `Review.all` from primary key to
object, and the operations `save`, `create`, `instance_from_db`,
`find_by_id`, `get_all`, `get_reviews_by_employee_id`, `update` and `delete`.

The model is a functional state machine:

- `Python` (python.dfy): tagged Python values (`IntV | BoolV | StrV | NoneV | Other`),
  so the `isinstance` checks keep their meaning (`bool` passes as `int`), the
  `ValueError`/`KeyError` exceptions, and `Result`/`Attempt` wrappers for calls
  that raise. `Attempt` keeps the state reached before an exception, because
  Python does not undo the statements that ran before a `raise`.
- `ReviewFields` (review_fields.dfy): an object's state as a `Record`, the
  three guarded setters with the exact messages of `lib/review.py`, and the constructor.
- `ReviewStore` (review_store.dfy): a `Store` holding the table
  (`map<int, Row>`), the cache `Review.all` (`map<int, Ref>`) and the objects
  (a heap `seq<Record>`; a `Ref` is an index, so a new object is appended).
  Each operation is a pure function from store to store and result.
- `ReviewQueries` (review_queries.dfy): the two list-returning queries as a
  loop that calls `instance_from_db` row after row. `Loaded` states what such
  a loop has produced: one object per key, cached under that key, holding
  the row of its own key or of a later key that yielded the same object.
- `ReviewLaws` (review_laws.dfy): the lemmas that every operation keeps the
  store invariant `Valid`, which `ReviewStore` defines (cache entries refer to
  objects, every cached key has a row, every object has a year of at least
  2000 and a non-empty summary). It also holds the identity-map round trips:
  save then find, save then delete, delete then find, update after save, and
  loading a row twice.

Abstractions:

- The existing employees are a parameter `employees: set<int>`.
  `Employee.find_by_id(v)` is true exactly when `v` is in it (lib/employee.py
  is not part of this model).
- `CURSOR.lastrowid` after the INSERT of `save` is a parameter `key` with
  `key !in table`. Only its freshness is modelled, not how the database
  chooses it.
- A SELECT without ORDER BY returns its rows in an order the database
  picks. The queries take that order as an argument `keys`, which lists
  each selected key exactly once. The contracts hold for every order the
  database picks. The returned list follows that order, and when two keys
  share a cached object the row fetched later wins.
- Rows hold tagged values, not checked ones. So a row can be one the
  setters reject, for example when its employee no longer exists. Loading
  such a row raises, as the Python code does.

Behaviour of the code that the contracts make explicit:

- `instance_from_db` on a cached object runs the three setters in order.
  If a later setter raises, the attributes already assigned keep their new
  values (`LoadInto`).
- `delete` runs the DELETE before `del Review.all[self.id]`. When the id is
  not a cache key (`None`, or an id set by hand within the signed 64-bit
  range), it raises `KeyError`, and the row is already gone.
- `update` and `delete` on an object whose id is `None` match no row
  (`WHERE id = NULL`).
- Saving an object a second time gives it a new key and leaves its old
  cache entry in place. No contract claims `all[k].id == k`.

## Model

| member | source | states |
|---|---|---|
| ReviewFields.SetYear | lib/review.py:29-34 | the year is stored exactly when the value is an int (bools included) of at least 2000; otherwise ValueError with the year message and the object is unchanged |
| ReviewFields.SetSummary | lib/review.py:40-45 | the summary is stored exactly when the value is a non-empty string; otherwise ValueError with the summary message and the object is unchanged |
| ReviewFields.SetEmployeeId | lib/review.py:51-60 | stored exactly when the value is an int naming an existing employee; a non-int and a missing employee raise different messages; the object is unchanged on failure |
| ReviewFields.Construct | lib/review.py:13-17 | construction succeeds exactly when all three values are accepted, yields those values and the given id, and is well formed; otherwise it raises the error of the first rejected value in the order year, summary, employee_id, with the employee type and missing-employee messages told apart |
| ReviewFields.SetYearReadsBack | lib/review.py:25-34 | after a successful assignment the year getter gives back the very value assigned (no bool is ever stored as a year) |
| ReviewFields.SettersKeepWellFormed | lib/review.py:29-60 | each setter, storing or raising, keeps year >= 2000 and a non-empty summary |
| ReviewFields.SettersIdempotent | lib/review.py:29-60 | assigning the same value twice has the effect and outcome of assigning it once |
| ReviewFields.ConstructIsSetters | lib/review.py:13-17 | the constructor agrees with running the year, summary and employee_id setters in that order: it builds what they build, or raises what the first failing setter raises |
| ReviewStore.RowOfHolds | lib/review.py:89-93 | the row written by INSERT/UPDATE holds the object's year, summary and employee_id |
| ReviewStore.LoadInto | lib/review.py:111-115 | overwriting a cached object from a row succeeds exactly when the row is accepted, then the object holds the row; it raises the error the constructor would raise on that row, each of the four messages in its case; on failure the earlier setters' values stay and the id never changes |
| ReviewStore.New | lib/review.py:13-17 | a new object is allocated exactly when construction succeeds; table and cache are untouched |
| ReviewStore.Save | lib/review.py:85-97 | a row under a key not in the table before holds the object's attributes; the object gets that id, cache[key] is the object; all other rows, cache entries and objects are unchanged |
| ReviewStore.Create | lib/review.py:99-104 | succeeds exactly when the values are accepted, then a new object saved under the fresh key and cached; on failure the store is unchanged; existing rows, other cache entries and existing objects are never changed |
| ReviewStore.InstanceFromDb | lib/review.py:106-121 | a cached key yields the same object overwritten from the row, kept partly overwritten when a setter raises; a new key a new object with that id added to the cache; succeeds exactly when the row is accepted, otherwise raises the constructor's error for the row; cache[key] is the returned object; no existing object changes its id; the table never changes |
| ReviewStore.FindById | lib/review.py:133-141 | None exactly when no row has the key, with nothing changed; a cached key returns the cached object itself, overwritten from the row, and left partly overwritten when a setter raises; an uncached key returns a new object with that id, and a rejected uncached row changes nothing; an unacceptable row raises the constructor's error; other cache entries and objects are unchanged, and no existing object changes its id |
| ReviewStore.Update | lib/review.py:152-160 | only the row keyed by the object's id is replaced, by the object's attributes; no such row (or id None) changes nothing; cache and objects never change |
| ReviewStore.Delete | lib/review.py:162-176 | removes the row keyed by the id; succeeds exactly when the id is a cache key, then removes that entry and sets the id to None, all else unchanged; otherwise KeyError with the row already removed |
| ReviewQueries.LoadRows | lib/review.py:149-150 | loading the rows in order succeeds exactly when every row is accepted; then one object per key, each the cache entry of its key and holding the row of its own or a later key; a new object has its key as id and a cached one keeps its id; two keys share an object only when both were cached before; otherwise it raises the constructor's error for the first rejected row; earlier cache entries, objects not cached under the keys and the ids of existing objects are kept |
| ReviewQueries.GetAll | lib/review.py:143-150 | succeeds exactly when every row is accepted; then one object per row, each the cache entry of its row's key, holding that row or a later one, with the row's key as id when it was not cached before; every returned object is cached under some row key; with no two cache keys sharing an object (an empty cache included) the objects are distinct and each holds its own row; otherwise it raises the constructor's error for the first rejected row; the cache keeps its entries and gains only keys of rows; objects not cached under a row key are unchanged; the store invariant is kept |
| ReviewQueries.GetReviewsByEmployeeId | lib/review.py:123-131 | one object per row whose employee_id is the argument, each the cache entry of its key, with the key as id when it was not cached before; every returned object is cached under a selected key and has that employee_id; with no two cache keys sharing an object the objects are distinct and each holds its own row; otherwise it raises the constructor's error for the first rejected selected row; the cache gains only keys of selected rows; objects not cached under a selected key, other employees' reviews among them, are unchanged; the store invariant is kept |
| ReviewQueries.LoadedSelection | lib/review.py:123-150 | after loading an enumeration of the selected keys, every selected key is cached as one of the returned objects, and each returned object is cached under a selected key |
| ReviewQueries.LoadedWithEmployee | lib/review.py:123-131 | every object loaded from rows with employee_id e has employee_id e |
| ReviewQueries.LoadedOwnRows | lib/review.py:106-150 | when no two cache keys shared an object before loading, the loaded objects are pairwise distinct and each holds the row of its own key |
| ReviewLaws.LoadIntoKeepsWellFormed | lib/review.py:111-115 | a partial or complete overwrite from a row keeps the object well formed |
| ReviewLaws.NewKeepsValid | lib/review.py:13-17 | creating an object keeps the store invariant |
| ReviewLaws.SaveKeepsValid | lib/review.py:85-97 | save keeps the store invariant |
| ReviewLaws.CreateKeepsValid | lib/review.py:99-104 | create keeps the store invariant |
| ReviewLaws.InstanceFromDbKeepsValid | lib/review.py:106-121 | loading a stored row keeps the store invariant; the cache gains only keys that have rows |
| ReviewLaws.FindByIdKeepsValid | lib/review.py:133-141 | find_by_id keeps the store invariant |
| ReviewLaws.UpdateKeepsValid | lib/review.py:152-160 | update keeps the store invariant |
| ReviewLaws.DeleteKeepsValid | lib/review.py:162-176 | delete keeps the store invariant, also when it raises KeyError |
| ReviewLaws.SaveThenFind | lib/review.py:85-141 | find_by_id on the key save allocated returns the same object and changes nothing, while its employee exists |
| ReviewLaws.SaveThenDelete | lib/review.py:85-176 | save followed by delete succeeds and restores table and cache; the object keeps its attributes with id None |
| ReviewLaws.DeleteThenFind | lib/review.py:133-176 | after delete, raising or not, find_by_id of the old id returns None |
| ReviewLaws.UpdateIdempotent | lib/review.py:152-160 | update twice is update once |
| ReviewLaws.UpdateAfterSave | lib/review.py:85-160 | update right after save leaves the store as save left it |
| ReviewLaws.InstanceFromDbTwice | lib/review.py:106-121 | loading the same row again returns the same object and leaves the store unchanged |

## Left out

- SQL text, `CONN`, `CURSOR` and `commit`: foreign database calls. The table is a map, and each statement changes it at once.
- `create_table` and `drop_table`: DDL with no logic beyond the database engine.
- `__repr__`: presentation only.
- The property getters: each one only returns the stored attribute, which is a field of `Record`.
- `Employee` and `Employee.find_by_id`: lib/employee.py is not part of this model. Existing employees are a set parameter.
- The `lastrowid` allocation strategy: only "a key not in the table" is modelled.
- How the database orders the rows of a SELECT without ORDER BY: the order is an argument, and every contract holds for each order.
- Foreign-key enforcement and SQLite type affinity: stored values are kept as given. `WHERE employee_id = ?` matches rows holding exactly that integer.
- Argument types of `find_by_id(id)`, `get_reviews_by_employee_id(employee_id)` and the `id` attribute: modelled as integers (`Option<int>` for `id`, where `None` is unsaved). Other Python values are not modelled.
- An accepted `bool` employee id is stored as its integer value. Python's `True == 1` makes the two indistinguishable to the code.
- Rows always have four columns: a short tuple's `IndexError` in `instance_from_db` is not modelled.
- ReviewStore.Save: SQLite raises `OverflowError` at `CURSOR.execute` for an integer outside the signed 64-bit range (a year of `2**63`, say); integers are unbounded here, so `Review.create(2**63, "x", e)` succeeds in the model. Bounding every stored integer would add a check the Python code does not make itself.
- ReviewStore.Create: does not model that `OverflowError`, for the same reason as `Save`.
- ReviewStore.Update: does not model that `OverflowError` for an out-of-range year, employee_id or id.
- ReviewStore.FindById: does not model that `OverflowError` for an out-of-range id argument.
- ReviewStore.Delete: does not model that `OverflowError` for an id set by hand outside the signed 64-bit range; SQLite raises it at the DELETE, before `del Review.all[self.id]`, where the model raises `KeyError`.
- ReviewQueries.GetReviewsByEmployeeId: does not model that `OverflowError` for an out-of-range employee_id argument.

=== FILE: python.dfy ===
/** The few pieces of Python's runtime the review model needs: tagged values
    (so that `isinstance` checks stay meaningful), exceptions, and the
    Option/Result wrappers used to describe calls that may raise. */
module Python {

  /** A Python value, as far as the review setters can tell values apart.
      `bool` is a subclass of `int` in Python, so `BoolV` passes an
      `isinstance(v, int)` check. */
  datatype Value = IntV(i: int) | BoolV(b: bool) | StrV(s: string) | NoneV | Other

  /** `isinstance(v, int)` */
  predicate IsInt(v: Value) {
    v.IntV? || v.BoolV?
  }

  /** The integer a value that passes `isinstance(v, int)` stands for
      (`True == 1`, `False == 0`). */
  function IntOf(v: Value): int
    requires IsInt(v)
  {
    match v
    case IntV(i) => i
    case BoolV(b) => if b then 1 else 0
  }

  /** `isinstance(v, str) and v`: a string that is truthy, i.e. non-empty. */
  predicate IsNonEmptyStr(v: Value) {
    v.StrV? && v.s != []
  }

  /** `None`, or a present value. */
  datatype Option<+T> = None | Some(value: T)

  /** The exceptions the review code raises. `KeyError` carries the key that
      was missing from a dictionary (`None` included). */
  datatype Error = ValueError(message: string) | KeyError(key: Option<int>)

  /** The value of a call, or the exception it raised. */
  datatype Result<+T> = Ok(value: T) | Err(error: Error) {

    predicate IsFailure() {
      Err?
    }

    function PropagateFailure<U>(): Result<U>
      requires Err?
    {
      Err(error)
    }

    function Extract(): T
      requires Ok?
    {
      value
    }
  }

  /** Whether a statement completed or raised. */
  datatype Outcome = Pass | Raise(error: Error)

  /** The state an object or store is left in by a statement, together with
      whether the statement raised: Python does not roll back the effects
      that happened before an exception. */
  datatype Attempt<+S> = Attempt(after: S, outcome: Outcome)
}

=== FILE: review_fields.dfy ===
/** The attributes of a `Review` object and the guarded setters that check
    every value assigned to `year`, `summary` and `employee_id`. The set of
    ids of existing employees stands for the lookup `Employee.find_by_id`. */
module ReviewFields {
  import opened Python

  const YearMessage := "Year must be an integer greater than or equal to 2000"
  const SummaryMessage := "Summary must be a non-empty string"
  const EmployeeMissingMessage := "employee_id must reference an existing employee in the database"
  const EmployeeTypeMessage := "Employee ID must be an integer"

  /** The state of one `Review` object: its primary key (`None` until it is
      saved or after it is deleted) and the three validated attributes. */
  datatype Record = Record(id: Option<int>, year: int, summary: string, employeeId: int)

  /** What the year and summary setters guarantee of every object that has
      been built: the employee check depends on the employees table, which
      can change afterwards, so it is not part of this invariant. */
  predicate WellFormed(rec: Record) {
    rec.year >= 2000 && rec.summary != []
  }

  /** Values the `year` setter accepts. */
  predicate YearAccepted(v: Value) {
    IsInt(v) && IntOf(v) >= 2000
  }

  /** Values the `summary` setter accepts. */
  predicate SummaryAccepted(v: Value) {
    IsNonEmptyStr(v)
  }

  /** Values the `employee_id` setter accepts, given the ids of the
      employees that exist. */
  predicate EmployeeAccepted(v: Value, employees: set<int>) {
    IsInt(v) && IntOf(v) in employees
  }

  function CheckYear(v: Value): Result<int> {
    if YearAccepted(v) then Ok(IntOf(v)) else Err(ValueError(YearMessage))
  }

  function CheckSummary(v: Value): Result<string> {
    if SummaryAccepted(v) then Ok(v.s) else Err(ValueError(SummaryMessage))
  }

  function CheckEmployee(v: Value, employees: set<int>): Result<int> {
    if !IsInt(v) then Err(ValueError(EmployeeTypeMessage))
    else if EmployeeAccepted(v, employees) then Ok(IntOf(v))
    else Err(ValueError(EmployeeMissingMessage))
  }

  /** `review.year = v` */
  function SetYear(rec: Record, v: Value): (r: Attempt<Record>)
    ensures r.outcome.Pass? <==> YearAccepted(v)
    ensures r.outcome.Pass? ==> r.after == rec.(year := IntOf(v))
    ensures r.outcome.Raise? ==> r.after == rec && r.outcome.error == ValueError(YearMessage)
  {
    match CheckYear(v)
    case Ok(y) => Attempt(rec.(year := y), Pass)
    case Err(e) => Attempt(rec, Raise(e))
  }

  /** `review.summary = v` */
  function SetSummary(rec: Record, v: Value): (r: Attempt<Record>)
    ensures r.outcome.Pass? <==> SummaryAccepted(v)
    ensures r.outcome.Pass? ==> r.after == rec.(summary := v.s)
    ensures r.outcome.Raise? ==> r.after == rec && r.outcome.error == ValueError(SummaryMessage)
  {
    match CheckSummary(v)
    case Ok(s) => Attempt(rec.(summary := s), Pass)
    case Err(e) => Attempt(rec, Raise(e))
  }

  /** `review.employee_id = v`: a value that is not an integer and an
      integer that names no employee raise with different messages. */
  function SetEmployeeId(rec: Record, v: Value, employees: set<int>): (r: Attempt<Record>)
    ensures r.outcome.Pass? <==> EmployeeAccepted(v, employees)
    ensures r.outcome.Pass? ==> r.after == rec.(employeeId := IntOf(v))
    ensures r.outcome.Raise? ==> r.after == rec
    ensures !IsInt(v) ==> r.outcome == Raise(ValueError(EmployeeTypeMessage))
    ensures IsInt(v) && IntOf(v) !in employees ==> r.outcome == Raise(ValueError(EmployeeMissingMessage))
  {
    match CheckEmployee(v, employees)
    case Ok(e) => Attempt(rec.(employeeId := e), Pass)
    case Err(e) => Attempt(rec, Raise(e))
  }

  /** `Review(year, summary, employee_id, id)`: the constructor runs the
      three setters in order, so the first rejected value decides the
      exception, and an object whose construction raised is never seen. */
  function Construct(year: Value, summary: Value, employeeId: Value, id: Option<int>, employees: set<int>): (r: Result<Record>)
    ensures r.Ok? <==> YearAccepted(year) && SummaryAccepted(summary) && EmployeeAccepted(employeeId, employees)
    ensures r.Ok? ==> r.value == Record(id, IntOf(year), summary.s, IntOf(employeeId))
    ensures r.Ok? ==> WellFormed(r.value)
    ensures !YearAccepted(year) ==> r == Err(ValueError(YearMessage))
    ensures YearAccepted(year) && !SummaryAccepted(summary) ==> r == Err(ValueError(SummaryMessage))
    ensures YearAccepted(year) && SummaryAccepted(summary) && !IsInt(employeeId) ==>
      r == Err(ValueError(EmployeeTypeMessage))
    ensures YearAccepted(year) && SummaryAccepted(summary) && IsInt(employeeId) && IntOf(employeeId) !in employees ==>
      r == Err(ValueError(EmployeeMissingMessage))
  {
    var y :- CheckYear(year);
    var s :- CheckSummary(summary);
    var e :- CheckEmployee(employeeId, employees);
    Ok(Record(id, y, s, e))
  }

  /** A value the year setter stores reads back from the getter as the very
      value assigned: `bool` is never accepted, as no boolean reaches 2000. */
  lemma SetYearReadsBack(rec: Record, v: Value)
    requires SetYear(rec, v).outcome.Pass?
    ensures IntV(SetYear(rec, v).after.year) == v
  {
  }

  /** Each setter keeps an object well formed, whether it stores or raises. */
  lemma SettersKeepWellFormed(rec: Record, v: Value, employees: set<int>)
    requires WellFormed(rec)
    ensures WellFormed(SetYear(rec, v).after)
    ensures WellFormed(SetSummary(rec, v).after)
    ensures WellFormed(SetEmployeeId(rec, v, employees).after)
  {
  }

  /** Assigning the same value twice is the same as assigning it once. */
  lemma SettersIdempotent(rec: Record, v: Value, employees: set<int>)
    ensures SetYear(SetYear(rec, v).after, v) == SetYear(rec, v)
    ensures SetSummary(SetSummary(rec, v).after, v) == SetSummary(rec, v)
    ensures SetEmployeeId(SetEmployeeId(rec, v, employees).after, v, employees) == SetEmployeeId(rec, v, employees)
  {
  }

  /** The constructor agrees with running the three setters, in the order
      `__init__` runs them, on any object that already carries the id: it
      succeeds with the object they build, or raises what the first failing
      setter raises. */
  lemma ConstructIsSetters(base: Record, year: Value, summary: Value, employeeId: Value, employees: set<int>)
    ensures
      var a := SetYear(base, year);
      var b := SetSummary(a.after, summary);
      var c := SetEmployeeId(b.after, employeeId, employees);
      var r := Construct(year, summary, employeeId, base.id, employees);
      (r.Ok? <==> a.outcome.Pass? && b.outcome.Pass? && c.outcome.Pass?)
      && (r.Ok? ==> c.after == r.value)
      && (a.outcome.Raise? ==> r == Err(a.outcome.error))
      && (a.outcome.Pass? && b.outcome.Raise? ==> r == Err(b.outcome.error))
      && (a.outcome.Pass? && b.outcome.Pass? && c.outcome.Raise? ==> r == Err(c.outcome.error))
  {
  }
}

=== FILE: review_laws.dfy ===
/** Properties that relate several operations on the review store: the store
    invariant is kept by every operation, and the identity map makes `save`,
    `find_by_id`, `update` and `delete` fit together. */
module ReviewLaws {
  import opened Python
  import opened ReviewFields
  import opened ReviewStore

  /** Overwriting a cached object from a row keeps it well formed, whether
      the setters all pass or one of them raises halfway. */
  lemma LoadIntoKeepsWellFormed(rec: Record, row: Row, employees: set<int>)
    requires WellFormed(rec)
    ensures WellFormed(LoadInto(rec, row, employees).after)
  {
  }

  lemma NewKeepsValid(st: Store, year: Value, summary: Value, employeeId: Value, id: Option<int>, employees: set<int>)
    requires Valid(st)
    ensures Valid(New(st, year, summary, employeeId, id, employees).store)
  {
  }

  lemma SaveKeepsValid(st: Store, r: Ref, key: int)
    requires Valid(st)
    requires r < |st.heap|
    requires key !in st.table
    ensures Valid(Save(st, r, key))
  {
  }

  lemma CreateKeepsValid(st: Store, year: Value, summary: Value, employeeId: Value, employees: set<int>, key: int)
    requires Valid(st)
    requires key !in st.table
    ensures Valid(Create(st, year, summary, employeeId, employees, key).store)
  {
    var n := New(st, year, summary, employeeId, None, employees);
    NewKeepsValid(st, year, summary, employeeId, None, employees);
    if n.result.Ok? {
      SaveKeepsValid(n.store, n.result.value, key);
    }
  }

  /** Loading a row that is in the table keeps the store invariant; in
      particular the cache only ever gains keys that have rows. */
  lemma InstanceFromDbKeepsValid(st: Store, key: int, employees: set<int>)
    requires Valid(st)
    requires key in st.table
    ensures Valid(InstanceFromDb(st, key, st.table[key], employees).store)
  {
    if key in st.cache {
      LoadIntoKeepsWellFormed(st.heap[st.cache[key]], st.table[key], employees);
    }
  }

  lemma FindByIdKeepsValid(st: Store, id: int, employees: set<int>)
    requires Valid(st)
    ensures Valid(FindById(st, id, employees).store)
  {
    if id in st.table {
      InstanceFromDbKeepsValid(st, id, employees);
    }
  }

  lemma UpdateKeepsValid(st: Store, r: Ref)
    requires Valid(st)
    requires r < |st.heap|
    ensures Valid(Update(st, r))
  {
  }

  /** `delete` keeps the invariant even when `del Review.all[id]` raises:
      it raises only when the id was not a cache key, so the row it has
      already removed was not one the cache needs. */
  lemma DeleteKeepsValid(st: Store, r: Ref)
    requires Valid(st)
    requires r < |st.heap|
    ensures Valid(Delete(st, r).store)
  {
  }

  /** A saved object is found again under its new key, as the very same
      object, and finding it changes nothing, provided its employee still
      exists. */
  lemma SaveThenFind(st: Store, r: Ref, key: int, employees: set<int>)
    requires Valid(st)
    requires r < |st.heap|
    requires key !in st.table
    requires st.heap[r].employeeId in employees
    ensures FindById(Save(st, r, key), key, employees) == Answer(Save(st, r, key), Ok(Some(r)))
  {
  }

  /** Saving an object and deleting it gives back the table and the cache
      as they were; the object is left with its attributes and no id. */
  lemma SaveThenDelete(st: Store, r: Ref, key: int)
    requires Valid(st)
    requires r < |st.heap|
    requires key !in st.table
    ensures
      var d := Delete(Save(st, r, key), r);
      && d.result.Ok?
      && d.store.table == st.table
      && d.store.cache == st.cache
      && d.store.heap == st.heap[r := st.heap[r].(id := None)]
  {
  }

  /** After `delete` (whether or not it raised) no row is found under the
      id the object had. */
  lemma DeleteThenFind(st: Store, r: Ref, employees: set<int>)
    requires Valid(st)
    requires r < |st.heap|
    requires st.heap[r].id.Some?
    ensures
      var d := Delete(st, r);
      FindById(d.store, st.heap[r].id.value, employees) == Answer(d.store, Ok(None))
  {
  }

  /** Running `update` twice is running it once. */
  lemma UpdateIdempotent(st: Store, r: Ref)
    requires r < |st.heap|
    ensures Update(Update(st, r), r) == Update(st, r)
  {
  }

  /** Right after `save`, `update` writes the row that is already there. */
  lemma UpdateAfterSave(st: Store, r: Ref, key: int)
    requires r < |st.heap|
    requires key !in st.table
    ensures Update(Save(st, r, key), r) == Save(st, r, key)
  {
  }

  /** The identity map at work: loading the same row a second time returns
      the object the first load returned and leaves the store as it was. */
  lemma InstanceFromDbTwice(st: Store, key: int, row: Row, employees: set<int>)
    requires RefsLive(st)
    requires InstanceFromDb(st, key, row, employees).result.Ok?
    ensures
      var a := InstanceFromDb(st, key, row, employees);
      InstanceFromDb(a.store, key, row, employees) == a
  {
  }
}

=== FILE: review_queries.dfy ===
/** The query helpers that turn every selected row into an object through
    `instance_from_db`: `Review.get_all` and
    `Review.get_reviews_by_employee_id`.

    A SELECT without ORDER BY returns its rows in an order the database
    chooses; the model takes that order as the argument `keys`, an
    enumeration of the selected primary keys, and states nothing that
    depends on it. */
module ReviewQueries {
  import opened Python
  import opened ReviewFields
  import opened ReviewStore
  import opened ReviewLaws

  /** No key occurs twice. */
  predicate Distinct(keys: seq<int>) {
    forall i, j :: 0 <= i < j < |keys| ==> keys[i] != keys[j]
  }

  /** `keys` lists each element of `s` exactly once. */
  ghost predicate Enumerates(keys: seq<int>, s: set<int>) {
    Distinct(keys) && (forall k :: k in keys ==> k in s) && (forall k :: k in s ==> k in keys)
  }

  /** The keys of the rows `WHERE employee_id = e` selects. */
  ghost function WithEmployee(table: map<int, Row>, e: int): set<int> {
    set k | k in table && table[k].employeeId == IntV(e)
  }

  /** `r` is the object the cache holds under one of the keys `selected`. */
  ghost predicate CachedUnder(cache: map<int, Ref>, selected: set<int>, r: Ref) {
    exists k :: k in selected && k in cache && cache[k] == r
  }

  /** No two keys of the cache refer to the same object. This holds of the
      empty cache and fails once an object has been saved a second time. */
  ghost predicate OneObjectPerKey(cache: map<int, Ref>) {
    forall k1, k2 :: k1 in cache && k2 in cache && k1 != k2 ==> cache[k1] != cache[k2]
  }

  /** The object `refs[i]` holds the row of a key fetched at position `i` or
      later that yielded the same object: when two keys of the cache refer to
      one object, the later row wins. */
  ghost predicate HoldsLaterRow(heap: seq<Record>, table: map<int, Row>, keys: seq<int>, refs: seq<Ref>, i: int)
    requires 0 <= i < |refs| <= |keys|
    requires forall j :: 0 <= j < |refs| ==> refs[j] < |heap| && keys[j] in table
  {
    exists j :: i <= j < |refs| && refs[j] == refs[i] && Holds(heap[refs[i]], table[keys[j]])
  }

  /** The first `|refs|` keys of `keys` were loaded from `st`, giving the
      objects `refs` and the store `after`: one object per key, cached under
      that key; each object holds the row of its own key or of a later key
      that yielded the same object; an object is shared between two keys
      only when both keys were cached before, and every other key got a new
      object. A new object carries its key as id; a cached one is the object
      the cache held and keeps the id it had. */
  ghost predicate Loaded(st: Store, after: Store, keys: seq<int>, refs: seq<Ref>) {
    && |refs| <= |keys|
    && (forall i :: 0 <= i < |keys| ==> keys[i] in st.table)
    && (forall i :: 0 <= i < |refs| ==>
          keys[i] in after.cache && after.cache[keys[i]] == refs[i] && refs[i] < |after.heap|)
    && (forall i :: 0 <= i < |refs| ==> HoldsLaterRow(after.heap, st.table, keys, refs, i))
    && (forall i :: 0 <= i < |refs| && keys[i] !in st.cache ==> |st.heap| <= refs[i])
    && (forall i, j :: 0 <= i < j < |refs| && refs[i] == refs[j] ==> keys[i] in st.cache && keys[j] in st.cache)
    && (forall i :: 0 <= i < |refs| && keys[i] !in st.cache ==> after.heap[refs[i]].id == Some(keys[i]))
    && (forall i :: 0 <= i < |refs| && keys[i] in st.cache ==>
          refs[i] == st.cache[keys[i]] && refs[i] < |st.heap| && after.heap[refs[i]].id == st.heap[refs[i]].id)
  }

  /** Loading the rows under `keys` in order raises `error` at position `i`:
      every earlier row was accepted, and the row at `i` is rejected with the
      exception the constructor raises for it. */
  ghost predicate RaisesAt(table: map<int, Row>, keys: seq<int>, employees: set<int>, i: int, error: Error) {
    && 0 <= i < |keys|
    && (forall j :: 0 <= j <= i ==> keys[j] in table)
    && (forall j :: 0 <= j < i ==> RowAccepted(table[keys[j]], employees))
    && !RowAccepted(table[keys[i]], employees)
    && Construct(table[keys[i]].year, table[keys[i]].summary, table[keys[i]].employeeId, None, employees) == Err(error)
  }

  /** What holds of the store `s` after loading the first `n` keys, whether
      or not the last load raised: the table is untouched, the cache keeps
      its entries and gains only those keys, only objects cached under the
      keys change, and no object that existed before changes its id. */
  ghost predicate Framed(st: Store, s: Store, keys: seq<int>, n: int)
    requires 0 <= n <= |keys|
  {
    && s.table == st.table
    && RefsLive(s)
    && (Valid(st) ==> Valid(s))
    && |st.heap| <= |s.heap|
    && (forall k :: k in st.cache ==> k in s.cache && s.cache[k] == st.cache[k])
    && (forall k :: k in s.cache ==> k in st.cache || k in keys[..n])
    && (forall q :: 0 <= q < |st.heap| && (forall k :: k in keys && k in st.cache ==> st.cache[k] != q) ==>
          s.heap[q] == st.heap[q])
    && (forall q :: 0 <= q < |st.heap| ==> s.heap[q].id == st.heap[q].id)
  }

  /** `[cls.instance_from_db(row) for row in rows]` over the rows stored under
      `keys`, in that order. An exception stops the list comprehension, and
      the objects already loaded keep their new attributes. */
  method LoadRows(st: Store, keys: seq<int>, employees: set<int>) returns (a: Answer<seq<Ref>>)
    requires RefsLive(st)
    requires Distinct(keys)
    requires forall i :: 0 <= i < |keys| ==> keys[i] in st.table
    ensures a.store.table == st.table
    ensures RefsLive(a.store)
    ensures Valid(st) ==> Valid(a.store)
    ensures |st.heap| <= |a.store.heap|
    ensures a.result.Ok? <==> forall i :: 0 <= i < |keys| ==> RowAccepted(st.table[keys[i]], employees)
    ensures forall k :: k in st.cache ==> k in a.store.cache && a.store.cache[k] == st.cache[k]
    ensures forall k :: k in a.store.cache ==> k in st.cache || k in keys
    ensures forall q :: 0 <= q < |st.heap| && (forall k :: k in keys && k in st.cache ==> st.cache[k] != q) ==>
      a.store.heap[q] == st.heap[q]
    ensures forall q :: 0 <= q < |st.heap| ==> a.store.heap[q].id == st.heap[q].id
    ensures a.result.Ok? ==> |a.result.value| == |keys| && Loaded(st, a.store, keys, a.result.value)
    ensures a.result.Err? ==> exists i :: RaisesAt(st.table, keys, employees, i, a.result.error)
  {
    var s := st;
    var refs: seq<Ref> := [];
    var n := 0;
    while n < |keys|
      invariant 0 <= n <= |keys|
      invariant |refs| == n
      invariant Framed(st, s, keys, n)
      invariant Loaded(st, s, keys, refs)
      invariant forall i :: 0 <= i < n ==> RowAccepted(st.table[keys[i]], employees)
    {
      var b := InstanceFromDb(s, keys[n], s.table[keys[n]], employees);
      LoadStep(st, s, keys, refs, employees);
      if b.result.Err? {
        PrefixKeys(keys, n + 1);
        assert RaisesAt(st.table, keys, employees, n, b.result.error);
        return Answer(b.store, Err(b.result.error));
      }
      LoadExtends(st, s, b, keys, refs, employees);
      refs := refs + [b.result.value];
      s := b.store;
      n := n + 1;
    }
    PrefixKeys(keys, n);
    a := Answer(s, Ok(refs));
  }

  /** A key of a prefix of `keys` is a key of `keys`. */
  lemma PrefixKeys(keys: seq<int>, n: int)
    requires 0 <= n <= |keys|
    ensures forall k :: k in keys[..n] ==> k in keys
  {
    forall k | k in keys[..n]
      ensures k in keys
    {
      var i :| 0 <= i < n && keys[..n][i] == k;
      assert keys[i] == k;
    }
  }

  /** One turn of the list comprehension: loading the next key keeps the
      frame, succeeds exactly when its row is accepted, and otherwise raises
      what the constructor raises for that row. */
  lemma LoadStep(st: Store, s: Store, keys: seq<int>, refs: seq<Ref>, employees: set<int>)
    requires RefsLive(st)
    requires Distinct(keys)
    requires |refs| < |keys|
    requires Framed(st, s, keys, |refs|)
    requires Loaded(st, s, keys, refs)
    ensures
      var b := InstanceFromDb(s, keys[|refs|], s.table[keys[|refs|]], employees);
      && Framed(st, b.store, keys, |refs| + 1)
      && (b.result.Ok? <==> RowAccepted(st.table[keys[|refs|]], employees))
      && (b.result.Err? ==>
            Construct(st.table[keys[|refs|]].year, st.table[keys[|refs|]].summary, st.table[keys[|refs|]].employeeId,
                      None, employees) == Err(b.result.error))
  {
  }

  /** A successful turn of the list comprehension extends what has been
      loaded by the object it returns. */
  lemma LoadExtends(st: Store, s: Store, b: Answer<Ref>, keys: seq<int>, refs: seq<Ref>, employees: set<int>)
    requires RefsLive(st)
    requires Distinct(keys)
    requires |refs| < |keys|
    requires Framed(st, s, keys, |refs|)
    requires Loaded(st, s, keys, refs)
    requires b == InstanceFromDb(s, keys[|refs|], s.table[keys[|refs|]], employees)
    requires b.result.Ok?
    ensures Loaded(st, b.store, keys, refs + [b.result.value])
  {
    var n := |refs|;
    var key := keys[n];
    var refs' := refs + [b.result.value];
    assert key !in keys[..n];
    assert key in s.cache ==> key in st.cache;
    LaterRowsKept(s, b, keys, refs, employees);
    SharingKept(st, s, b, keys, refs, employees);
    IdsKept(st, s, b, keys, refs, employees);
    forall i | 0 <= i < n + 1
      ensures keys[i] in b.store.cache && b.store.cache[keys[i]] == refs'[i] && refs'[i] < |b.store.heap|
    {
    }
  }

  /** One more `instance_from_db` call keeps the ids of the objects loaded
      so far, and gives the new object its key as id or leaves the cached
      object's id as it was. */
  lemma IdsKept(st: Store, s: Store, b: Answer<Ref>, keys: seq<int>, refs: seq<Ref>, employees: set<int>)
    requires RefsLive(st) && RefsLive(s)
    requires Distinct(keys)
    requires |refs| < |keys|
    requires Framed(st, s, keys, |refs|)
    requires Loaded(st, s, keys, refs)
    requires b == InstanceFromDb(s, keys[|refs|], s.table[keys[|refs|]], employees)
    requires b.result.Ok?
    ensures forall i :: 0 <= i <= |refs| && keys[i] !in st.cache ==>
      b.store.heap[(refs + [b.result.value])[i]].id == Some(keys[i])
    ensures forall i :: 0 <= i <= |refs| && keys[i] in st.cache ==>
      && (refs + [b.result.value])[i] == st.cache[keys[i]]
      && (refs + [b.result.value])[i] < |st.heap|
      && b.store.heap[(refs + [b.result.value])[i]].id == st.heap[(refs + [b.result.value])[i]].id
  {
  }

  /** One more `instance_from_db` call keeps every earlier object holding a
      row fetched at its position or later, and the new object holds its own. */
  lemma LaterRowsKept(s: Store, b: Answer<Ref>, keys: seq<int>, refs: seq<Ref>, employees: set<int>)
    requires RefsLive(s)
    requires |refs| < |keys|
    requires forall i :: 0 <= i <= |refs| ==> keys[i] in s.table
    requires forall i :: 0 <= i < |refs| ==> keys[i] in s.cache && s.cache[keys[i]] == refs[i]
    requires forall i :: 0 <= i < |refs| ==> refs[i] < |s.heap|
    requires forall i :: 0 <= i < |refs| ==> HoldsLaterRow(s.heap, s.table, keys, refs, i)
    requires b == InstanceFromDb(s, keys[|refs|], s.table[keys[|refs|]], employees)
    requires b.result.Ok?
    ensures forall i :: 0 <= i <= |refs| ==> (refs + [b.result.value])[i] < |b.store.heap|
    ensures forall i :: 0 <= i <= |refs| ==> HoldsLaterRow(b.store.heap, s.table, keys, refs + [b.result.value], i)
  {
    var n := |refs|;
    var x := b.result.value;
    var refs' := refs + [x];
    forall i | 0 <= i <= n
      ensures refs'[i] < |b.store.heap|
    {
      if i < n {
        assert refs'[i] == b.store.cache[keys[i]];
      } else {
        assert refs'[i] == b.store.cache[keys[n]];
      }
    }
    forall i | 0 <= i <= n
      ensures HoldsLaterRow(b.store.heap, s.table, keys, refs', i)
    {
      if refs'[i] == x {
        assert Holds(b.store.heap[refs'[n]], s.table[keys[n]]);
      } else {
        assert HoldsLaterRow(s.heap, s.table, keys, refs, i);
        var j :| i <= j < n && refs[j] == refs[i] && Holds(s.heap[refs[i]], s.table[keys[j]]);
        assert refs'[j] == refs'[i];
      }
    }
  }

  /** One more `instance_from_db` call gives a new object to a key that was
      not cached before, and shares an object only between keys that were. */
  lemma SharingKept(st: Store, s: Store, b: Answer<Ref>, keys: seq<int>, refs: seq<Ref>, employees: set<int>)
    requires RefsLive(st) && RefsLive(s)
    requires |refs| < |keys|
    requires keys[|refs|] in s.table
    requires forall k :: k in st.cache ==> k in s.cache && s.cache[k] == st.cache[k]
    requires keys[|refs|] in s.cache ==> keys[|refs|] in st.cache
    requires |st.heap| <= |s.heap|
    requires forall i :: 0 <= i < |refs| ==> refs[i] < |s.heap|
    requires forall i :: 0 <= i < |refs| && keys[i] !in st.cache ==> |st.heap| <= refs[i]
    requires forall i, j :: 0 <= i < j < |refs| && refs[i] == refs[j] ==> keys[i] in st.cache && keys[j] in st.cache
    requires b == InstanceFromDb(s, keys[|refs|], s.table[keys[|refs|]], employees)
    requires b.result.Ok?
    ensures forall i :: 0 <= i <= |refs| && keys[i] !in st.cache ==> |st.heap| <= (refs + [b.result.value])[i]
    ensures forall i, j :: 0 <= i < j <= |refs| && (refs + [b.result.value])[i] == (refs + [b.result.value])[j] ==>
      keys[i] in st.cache && keys[j] in st.cache
  {
    var n := |refs|;
    var x := b.result.value;
    var refs' := refs + [x];
    if keys[n] in s.cache {
      assert x == st.cache[keys[n]] < |st.heap|;
    } else {
      assert keys[n] !in st.cache && x == |s.heap|;
    }
    forall i, j | 0 <= i < j <= n && refs'[i] == refs'[j]
      ensures keys[i] in st.cache && keys[j] in st.cache
    {
      if j < n {
        assert refs[i] == refs[j];
      }
    }
  }

  /** `Review.get_all()`: one object per row of the table. */
  method GetAll(st: Store, keys: seq<int>, employees: set<int>) returns (a: Answer<seq<Ref>>)
    requires RefsLive(st)
    requires Enumerates(keys, st.table.Keys)
    ensures a.store.table == st.table
    ensures RefsLive(a.store)
    ensures Valid(st) ==> Valid(a.store)
    ensures a.result.Ok? <==> forall k :: k in st.table ==> RowAccepted(st.table[k], employees)
    ensures a.result.Ok? ==> |a.result.value| == |st.table|
    ensures a.result.Ok? ==> forall k :: k in st.table ==> k in a.store.cache && a.store.cache[k] in a.result.value
    ensures forall k :: k in a.store.cache ==> k in st.cache || k in st.table
    ensures forall k :: k in st.cache ==> k in a.store.cache && a.store.cache[k] == st.cache[k]
    ensures a.result.Ok? ==> |a.result.value| == |keys| && Loaded(st, a.store, keys, a.result.value)
    ensures a.result.Ok? ==> forall i :: 0 <= i < |a.result.value| ==>
      CachedUnder(a.store.cache, st.table.Keys, a.result.value[i])
    ensures a.result.Ok? && OneObjectPerKey(st.cache) ==>
      && (forall i, j :: 0 <= i < j < |a.result.value| ==> a.result.value[i] != a.result.value[j])
      && (forall i :: 0 <= i < |a.result.value| ==> Holds(a.store.heap[a.result.value[i]], st.table[keys[i]]))
    ensures a.result.Err? ==> exists i :: RaisesAt(st.table, keys, employees, i, a.result.error)
    ensures |st.heap| <= |a.store.heap|
    ensures forall q :: 0 <= q < |st.heap| && (forall k :: k in keys && k in st.cache ==> st.cache[k] != q) ==>
      a.store.heap[q] == st.heap[q]
    ensures forall q :: 0 <= q < |st.heap| ==> a.store.heap[q].id == st.heap[q].id
  {
    EnumeratedKeysAreRows(keys, st.table);
    a := LoadRows(st, keys, employees);
    EnumerationSize(keys, st.table.Keys);
    if a.result.Ok? {
      if OneObjectPerKey(st.cache) {
        LoadedOwnRows(st, a.store, keys, a.result.value);
      }
      LoadedSelection(st, a.store, keys, a.result.value, st.table.Keys);
    } else {
      var i :| 0 <= i < |keys| && !RowAccepted(st.table[keys[i]], employees);
      assert keys[i] in st.table;
    }
  }

  /** `Review.get_reviews_by_employee_id(e)`: one object per row whose
      `employee_id` is `e`, and every object returned has that employee id. */
  method GetReviewsByEmployeeId(st: Store, e: int, keys: seq<int>, employees: set<int>) returns (a: Answer<seq<Ref>>)
    requires RefsLive(st)
    requires Enumerates(keys, WithEmployee(st.table, e))
    ensures a.store.table == st.table
    ensures RefsLive(a.store)
    ensures Valid(st) ==> Valid(a.store)
    ensures a.result.Ok? <==> forall k :: k in WithEmployee(st.table, e) ==> RowAccepted(st.table[k], employees)
    ensures a.result.Ok? ==> |a.result.value| == |WithEmployee(st.table, e)|
    ensures a.result.Ok? ==> forall k :: k in WithEmployee(st.table, e) ==> k in a.store.cache && a.store.cache[k] in a.result.value
    ensures a.result.Ok? ==> forall i :: 0 <= i < |a.result.value| ==>
      a.result.value[i] < |a.store.heap| && a.store.heap[a.result.value[i]].employeeId == e
    ensures forall k :: k in st.cache ==> k in a.store.cache && a.store.cache[k] == st.cache[k]
    ensures forall k :: k in a.store.cache ==> k in st.cache || k in WithEmployee(st.table, e)
    ensures a.result.Ok? ==> |a.result.value| == |keys| && Loaded(st, a.store, keys, a.result.value)
    ensures a.result.Ok? ==> forall i :: 0 <= i < |a.result.value| ==>
      CachedUnder(a.store.cache, WithEmployee(st.table, e), a.result.value[i])
    ensures a.result.Ok? && OneObjectPerKey(st.cache) ==>
      && (forall i, j :: 0 <= i < j < |a.result.value| ==> a.result.value[i] != a.result.value[j])
      && (forall i :: 0 <= i < |a.result.value| ==> Holds(a.store.heap[a.result.value[i]], st.table[keys[i]]))
    ensures a.result.Err? ==> exists i :: RaisesAt(st.table, keys, employees, i, a.result.error)
    ensures |st.heap| <= |a.store.heap|
    ensures forall q :: 0 <= q < |st.heap| && (forall k :: k in keys && k in st.cache ==> st.cache[k] != q) ==>
      a.store.heap[q] == st.heap[q]
    ensures forall q :: 0 <= q < |st.heap| ==> a.store.heap[q].id == st.heap[q].id
  {
    EnumeratedKeysAreRows(keys, st.table);
    a := LoadRows(st, keys, employees);
    EnumerationSize(keys, WithEmployee(st.table, e));
    if a.result.Ok? {
      var refs := a.result.value;
      if OneObjectPerKey(st.cache) {
        LoadedOwnRows(st, a.store, keys, refs);
      }
      LoadedSelection(st, a.store, keys, refs, WithEmployee(st.table, e));
      LoadedWithEmployee(st, a.store, keys, refs, e);
    } else {
      var i :| 0 <= i < |keys| && !RowAccepted(st.table[keys[i]], employees);
      assert keys[i] in WithEmployee(st.table, e);
    }
  }

  /** The objects loaded for an enumeration of the selected keys: every
      selected key is cached as one of them, and each of them is the cached
      object of some selected key. */
  lemma LoadedSelection(st: Store, after: Store, keys: seq<int>, refs: seq<Ref>, selected: set<int>)
    requires Enumerates(keys, selected)
    requires |refs| == |keys|
    requires Loaded(st, after, keys, refs)
    ensures forall k :: k in selected ==> k in after.cache && after.cache[k] in refs
    ensures forall i :: 0 <= i < |refs| ==> CachedUnder(after.cache, selected, refs[i])
  {
    forall k | k in selected
      ensures k in after.cache && after.cache[k] in refs
    {
      var i :| 0 <= i < |keys| && keys[i] == k;
      assert refs[i] == after.cache[k];
    }
    forall i | 0 <= i < |refs|
      ensures CachedUnder(after.cache, selected, refs[i])
    {
      var k := keys[i];
      assert k in keys;
      assert k in selected && after.cache[k] == refs[i];
    }
  }

  /** Every object loaded from rows whose `employee_id` is `e` has employee
      id `e`, whichever of those rows reached it last. */
  lemma LoadedWithEmployee(st: Store, after: Store, keys: seq<int>, refs: seq<Ref>, e: int)
    requires forall k :: k in keys ==> k in WithEmployee(st.table, e)
    requires Loaded(st, after, keys, refs)
    ensures forall i :: 0 <= i < |refs| ==> refs[i] < |after.heap| && after.heap[refs[i]].employeeId == e
  {
    forall i | 0 <= i < |refs|
      ensures refs[i] < |after.heap| && after.heap[refs[i]].employeeId == e
    {
      assert HoldsLaterRow(after.heap, st.table, keys, refs, i);
      var j :| i <= j < |refs| && refs[j] == refs[i] && Holds(after.heap[refs[i]], st.table[keys[j]]);
      var k := keys[j];
      assert k in keys;
      assert k in WithEmployee(st.table, e);
    }
  }

  /** When no two cached keys shared an object before loading (as with an
      empty cache), every loaded key got an object of its own, and each
      object holds exactly the row of its key. */
  lemma LoadedOwnRows(st: Store, after: Store, keys: seq<int>, refs: seq<Ref>)
    requires Distinct(keys)
    requires OneObjectPerKey(st.cache)
    requires forall k :: k in st.cache ==> k in after.cache && after.cache[k] == st.cache[k]
    requires Loaded(st, after, keys, refs)
    ensures forall i, j :: 0 <= i < j < |refs| ==> refs[i] != refs[j]
    ensures forall i :: 0 <= i < |refs| ==> Holds(after.heap[refs[i]], st.table[keys[i]])
  {
    forall i, j | 0 <= i < j < |refs|
      ensures refs[i] != refs[j]
    {
      var ki, kj := keys[i], keys[j];
      assert refs[i] == refs[j] ==> ki in st.cache && kj in st.cache;
    }
    forall i | 0 <= i < |refs|
      ensures Holds(after.heap[refs[i]], st.table[keys[i]])
    {
      assert HoldsLaterRow(after.heap, st.table, keys, refs, i);
      var j :| i <= j < |refs| && refs[j] == refs[i] && Holds(after.heap[refs[i]], st.table[keys[j]]);
      assert j == i;
    }
  }

  /** Every key of an enumeration of a set of table keys has a row. */
  lemma EnumeratedKeysAreRows(keys: seq<int>, table: map<int, Row>)
    requires forall k :: k in keys ==> k in table
    ensures forall i :: 0 <= i < |keys| ==> keys[i] in table
  {
    forall i | 0 <= i < |keys|
      ensures keys[i] in table
    {
      var k := keys[i];
      assert k in keys;
    }
  }

  /** An enumeration of a set has as many entries as the set has elements. */
  lemma {:induction false} EnumerationSize(keys: seq<int>, s: set<int>)
    requires Enumerates(keys, s)
    ensures |keys| == |s|
  {
    if keys != [] {
      var rest := keys[1..];
      assert keys[0] in keys;
      assert Enumerates(rest, s - {keys[0]}) by {
        forall k | k in s - {keys[0]}
          ensures k in rest
        {
          var i :| 0 <= i < |keys| && keys[i] == k;
          assert i != 0;
          assert rest[i - 1] == k;
        }
      }
      EnumerationSize(rest, s - {keys[0]});
      assert keys[0] in s;
      assert |s - {keys[0]}| == |s| - 1;
      assert |keys| == |rest| + 1;
    } else {
      assert forall k :: k !in s;
      assert s == {};
    }
  }
}

=== FILE: review_store.dfy ===
/** The persistence side of `Review`: the `reviews` table, the class-level
    identity cache `Review.all`, and the objects the cache refers to.

    The table is a map from primary key to row. The cache maps primary keys to
    object references; objects live in a heap, and a reference is an index
    into it, so creating an object appends to the heap. */
module ReviewStore {
  import opened Python
  import opened ReviewFields

  /** One row of the `reviews` table (the primary key is the map key). Rows
      hold the values as stored, so a row read back may be one that the
      setters reject. */
  datatype Row = Row(year: Value, summary: Value, employeeId: Value)

  /** A reference to a `Review` object: its position in the heap. */
  type Ref = nat

  datatype Store = Store(table: map<int, Row>, cache: map<int, Ref>, heap: seq<Record>)

  /** The store after an operation, and the value it returned or the
      exception it raised. */
  datatype Answer<+T> = Answer(store: Store, result: Result<T>)

  /** Every cache entry refers to an existing object. */
  predicate RefsLive(st: Store) {
    forall k :: k in st.cache ==> st.cache[k] < |st.heap|
  }

  /** The store invariant: cache entries refer to objects, every cached key
      has a row, and every object passed the year and summary checks. */
  ghost predicate Valid(st: Store) {
    && RefsLive(st)
    && st.cache.Keys <= st.table.Keys
    && forall q :: 0 <= q < |st.heap| ==> WellFormed(st.heap[q])
  }

  /** The row an INSERT or UPDATE writes for an object. */
  function RowOf(rec: Record): Row {
    Row(IntV(rec.year), StrV(rec.summary), IntV(rec.employeeId))
  }

  /** The object's attributes are the values held in the row. */
  predicate Holds(rec: Record, row: Row) {
    && row.year == IntV(rec.year)
    && row.summary == StrV(rec.summary)
    && IsInt(row.employeeId) && IntOf(row.employeeId) == rec.employeeId
  }

  /** A row whose three values the setters accept. */
  predicate RowAccepted(row: Row, employees: set<int>) {
    YearAccepted(row.year) && SummaryAccepted(row.summary) && EmployeeAccepted(row.employeeId, employees)
  }

  /** The row written for an object holds that object's attributes. */
  lemma RowOfHolds(rec: Record)
    ensures Holds(rec, RowOf(rec))
  {
  }

  /** The three setter calls of `instance_from_db` on a cached object, in
      order. The first that raises stops the others, and the attributes
      already assigned stay assigned. */
  function LoadInto(rec: Record, row: Row, employees: set<int>): (r: Attempt<Record>)
    ensures r.outcome.Pass? <==> RowAccepted(row, employees)
    ensures r.outcome.Pass? ==> Holds(r.after, row)
    ensures r.after.id == rec.id
    ensures r.after.year == (if YearAccepted(row.year) then IntOf(row.year) else rec.year)
    ensures r.after.summary
         == (if YearAccepted(row.year) && SummaryAccepted(row.summary) then row.summary.s else rec.summary)
    ensures r.outcome.Raise? ==> r.after.employeeId == rec.employeeId
    ensures !YearAccepted(row.year) ==> r.outcome == Raise(ValueError(YearMessage))
    ensures YearAccepted(row.year) && !SummaryAccepted(row.summary) ==> r.outcome == Raise(ValueError(SummaryMessage))
    ensures YearAccepted(row.year) && SummaryAccepted(row.summary) && !IsInt(row.employeeId) ==>
      r.outcome == Raise(ValueError(EmployeeTypeMessage))
    ensures
      YearAccepted(row.year) && SummaryAccepted(row.summary) && IsInt(row.employeeId) && IntOf(row.employeeId) !in employees
      ==> r.outcome == Raise(ValueError(EmployeeMissingMessage))
    ensures r.outcome.Raise? ==> Construct(row.year, row.summary, row.employeeId, rec.id, employees) == Err(r.outcome.error)
  {
    var a := SetYear(rec, row.year);
    if a.outcome.Raise? then a
    else
      var b := SetSummary(a.after, row.summary);
      if b.outcome.Raise? then b
      else SetEmployeeId(b.after, row.employeeId, employees)
  }

  /** `Review(year, summary, employee_id, id)` as a new object: nothing is
      allocated when the constructor raises. */
  function New(st: Store, year: Value, summary: Value, employeeId: Value, id: Option<int>, employees: set<int>): (a: Answer<Ref>)
    ensures a.store.table == st.table && a.store.cache == st.cache
    ensures a.result.Ok? <==> YearAccepted(year) && SummaryAccepted(summary) && EmployeeAccepted(employeeId, employees)
    ensures a.result.Err? ==> a.store == st
    ensures a.result.Ok? ==>
      && a.result.value == |st.heap|
      && a.store.heap == st.heap + [Record(id, IntOf(year), summary.s, IntOf(employeeId))]
  {
    match Construct(year, summary, employeeId, id, employees)
    case Err(e) => Answer(st, Err(e))
    case Ok(rec) => Answer(st.(heap := st.heap + [rec]), Ok(|st.heap|))
  }

  /** `review.save()`: INSERT a row under the key the database allocates,
      which is one not in use, then set the object's id and cache it. */
  function Save(st: Store, r: Ref, key: int): (st': Store)
    requires r < |st.heap|
    requires key !in st.table
    ensures st'.table.Keys == st.table.Keys + {key}
    ensures forall k :: k in st.table ==> st'.table[k] == st.table[k]
    ensures Holds(st.heap[r], st'.table[key])
    ensures |st'.heap| == |st.heap|
    ensures st'.heap[r].id == Some(key)
    ensures st'.heap[r].(id := st.heap[r].id) == st.heap[r]
    ensures forall q :: 0 <= q < |st.heap| && q != r ==> st'.heap[q] == st.heap[q]
    ensures st'.cache.Keys == st.cache.Keys + {key}
    ensures st'.cache[key] == r
    ensures forall k :: k in st.cache && k != key ==> st'.cache[k] == st.cache[k]
  {
    var rec := st.heap[r];
    Store(st.table[key := RowOf(rec)], st.cache[key := r], st.heap[r := rec.(id := Some(key))])
  }

  /** `Review.create(year, summary, employee_id)`: build an object and save
      it; when the constructor raises, nothing is inserted. */
  function Create(st: Store, year: Value, summary: Value, employeeId: Value, employees: set<int>, key: int): (a: Answer<Ref>)
    requires key !in st.table
    ensures a.result.Ok? <==> YearAccepted(year) && SummaryAccepted(summary) && EmployeeAccepted(employeeId, employees)
    ensures a.result.Err? ==> a.store == st
    ensures forall k :: k in st.table ==> k in a.store.table && a.store.table[k] == st.table[k]
    ensures forall k :: k in st.cache && k != key ==> k in a.store.cache && a.store.cache[k] == st.cache[k]
    ensures |st.heap| <= |a.store.heap|
    ensures forall q :: 0 <= q < |st.heap| ==> a.store.heap[q] == st.heap[q]
    ensures a.result.Ok? ==>
      && a.result.value == |st.heap|
      && a.store.heap == st.heap + [Record(Some(key), IntOf(year), summary.s, IntOf(employeeId))]
      && a.store.table.Keys == st.table.Keys + {key}
      && Holds(a.store.heap[a.result.value], a.store.table[key])
      && a.store.cache.Keys == st.cache.Keys + {key}
      && a.store.cache[key] == a.result.value
  {
    var n := New(st, year, summary, employeeId, None, employees);
    match n.result
    case Err(e) => Answer(st, Err(e))
    case Ok(r) => Answer(Save(n.store, r, key), Ok(r))
  }

  /** `Review.instance_from_db(row)` for the row stored under `key`: reuse the
      cached object and overwrite its attributes from the row, or build a new
      object with that key and cache it. */
  function InstanceFromDb(st: Store, key: int, row: Row, employees: set<int>): (a: Answer<Ref>)
    requires RefsLive(st)
    ensures a.store.table == st.table
    ensures RefsLive(a.store)
    ensures a.result.Ok? <==> RowAccepted(row, employees)
    ensures a.result.Ok? ==> key in a.store.cache && a.store.cache[key] == a.result.value
    ensures a.result.Ok? ==> Holds(a.store.heap[a.result.value], row)
    ensures forall k :: k in st.cache ==> k in a.store.cache && a.store.cache[k] == st.cache[k]
    ensures a.store.cache.Keys <= st.cache.Keys + {key}
    ensures |st.heap| <= |a.store.heap|
    ensures forall q :: 0 <= q < |st.heap| && (key !in st.cache || q != st.cache[key]) ==> a.store.heap[q] == st.heap[q]
    ensures key in st.cache ==>
      && a.store.cache == st.cache
      && |a.store.heap| == |st.heap|
      && a.store.heap[st.cache[key]].id == st.heap[st.cache[key]].id
      && (a.result.Ok? ==> a.result.value == st.cache[key])
    ensures key !in st.cache && a.result.Ok? ==>
      && a.result.value == |st.heap|
      && |a.store.heap| == |st.heap| + 1
      && a.store.heap[a.result.value].id == Some(key)
    ensures key !in st.cache && a.result.Err? ==> a.store == st
    ensures key in st.cache ==>
      a.store.heap[st.cache[key]] == LoadInto(st.heap[st.cache[key]], row, employees).after
    ensures a.result.Err? ==> Construct(row.year, row.summary, row.employeeId, None, employees) == Err(a.result.error)
    ensures forall q :: 0 <= q < |st.heap| ==> a.store.heap[q].id == st.heap[q].id
  {
    if key in st.cache then
      var r := st.cache[key];
      var l := LoadInto(st.heap[r], row, employees);
      var s := st.(heap := st.heap[r := l.after]);
      match l.outcome
      case Pass => Answer(s, Ok(r))
      case Raise(e) => Answer(s, Err(e))
    else
      match Construct(row.year, row.summary, row.employeeId, None, employees)
      case Err(e) => Answer(st, Err(e))
      case Ok(rec) =>
        var r := |st.heap|;
        Answer(Store(st.table, st.cache[key := r], st.heap + [rec.(id := Some(key))]), Ok(r))
  }

  /** `Review.find_by_id(id)`: `None` when no row has that key, otherwise the
      object `instance_from_db` makes of the row. */
  function FindById(st: Store, id: int, employees: set<int>): (a: Answer<Option<Ref>>)
    requires RefsLive(st)
    ensures a.store.table == st.table
    ensures RefsLive(a.store)
    ensures a.result == Ok(None) <==> id !in st.table
    ensures id !in st.table ==> a.store == st
    ensures a.result.Err? <==> id in st.table && !RowAccepted(st.table[id], employees)
    ensures a.result.Ok? && a.result.value.Some? ==>
      && id in a.store.cache
      && a.store.cache[id] == a.result.value.value
      && Holds(a.store.heap[a.result.value.value], st.table[id])
    ensures a.result.Err? ==>
      Construct(st.table[id].year, st.table[id].summary, st.table[id].employeeId, None, employees) == Err(a.result.error)
    ensures forall k :: k in st.cache ==> k in a.store.cache && a.store.cache[k] == st.cache[k]
    ensures a.store.cache.Keys <= st.cache.Keys + {id}
    ensures |st.heap| <= |a.store.heap|
    ensures forall q :: 0 <= q < |st.heap| && (id !in st.cache || q != st.cache[id]) ==> a.store.heap[q] == st.heap[q]
    ensures id in st.cache ==>
      && a.store.cache == st.cache
      && |a.store.heap| == |st.heap|
      && (id in st.table && a.result.Ok? ==> a.result.value == Some(st.cache[id]))
    ensures id in st.table && id !in st.cache && a.result.Ok? ==>
      && a.result.value == Some(|st.heap|)
      && |a.store.heap| == |st.heap| + 1
      && a.store.heap[|st.heap|].id == Some(id)
    ensures id in st.table && id !in st.cache && a.result.Err? ==> a.store == st
    ensures id in st.table && id in st.cache ==>
      a.store.heap[st.cache[id]] == LoadInto(st.heap[st.cache[id]], st.table[id], employees).after
    ensures forall q :: 0 <= q < |st.heap| ==> a.store.heap[q].id == st.heap[q].id
  {
    if id in st.table then
      var i := InstanceFromDb(st, id, st.table[id], employees);
      match i.result
      case Ok(r) => Answer(i.store, Ok(Some(r)))
      case Err(e) => Answer(i.store, Err(e))
    else
      Answer(st, Ok(None))
  }

  /** `review.update()`: overwrite the row keyed by the object's id with its
      attributes. `WHERE id = NULL` and a key with no row match nothing. */
  function Update(st: Store, r: Ref): (st': Store)
    requires r < |st.heap|
    ensures st'.cache == st.cache && st'.heap == st.heap
    ensures st'.table.Keys == st.table.Keys
    ensures forall k :: k in st.table && Some(k) != st.heap[r].id ==> st'.table[k] == st.table[k]
    ensures st.heap[r].id.Some? && st.heap[r].id.value in st.table ==>
      Holds(st.heap[r], st'.table[st.heap[r].id.value])
    ensures st.heap[r].id.None? || st.heap[r].id.value !in st.table ==> st' == st
  {
    var rec := st.heap[r];
    if rec.id.Some? && rec.id.value in st.table then
      st.(table := st.table[rec.id.value := RowOf(rec)])
    else
      st
  }

  /** `review.delete()`: DELETE the row keyed by the object's id, then remove
      the cache entry under that id and set the id to `None`. The row is
      already gone when `del Review.all[id]` raises `KeyError`. */
  function Delete(st: Store, r: Ref): (a: Answer<()>)
    requires r < |st.heap|
    ensures a.result.Ok? <==> st.heap[r].id.Some? && st.heap[r].id.value in st.cache
    ensures st.heap[r].id.Some? ==> a.store.table.Keys == st.table.Keys - {st.heap[r].id.value}
    ensures st.heap[r].id.None? ==> a.store.table == st.table
    ensures forall k :: k in a.store.table ==> k in st.table && a.store.table[k] == st.table[k]
    ensures a.result.Err? ==>
      && a.result.error == KeyError(st.heap[r].id)
      && a.store.cache == st.cache
      && a.store.heap == st.heap
    ensures a.result.Ok? ==>
      && a.store.cache.Keys == st.cache.Keys - {st.heap[r].id.value}
      && (forall k :: k in a.store.cache ==> a.store.cache[k] == st.cache[k])
      && |a.store.heap| == |st.heap|
      && a.store.heap[r].id == None
      && a.store.heap[r].(id := st.heap[r].id) == st.heap[r]
      && (forall q :: 0 <= q < |st.heap| && q != r ==> a.store.heap[q] == st.heap[q])
  {
    var rec := st.heap[r];
    var table := if rec.id.Some? then st.table - {rec.id.value} else st.table;
    if rec.id.Some? && rec.id.value in st.cache then
      Answer(Store(table, st.cache - {rec.id.value}, st.heap[r := rec.(id := None)]), Ok(()))
    else
      Answer(st.(table := table), Err(KeyError(rec.id)))
  }
}
